=== FILE: README.md ===
# Content-platform interaction store, comment forest and relative time, in Dafny

This project models the deterministic core of a content-platform front end (questions, answers, blog posts, news), whose interaction state lives in browser local storage:

- **the interaction store** (`src/utils/interactionUtils.ts`). It has six tables keyed by content type and id: votes, favourites, hidden items, reports, per-thread comment lists, and the accepted answer per question. Each exported function is one read-modify-write of one table. The store is the immutable record `Interactions.Store` of Dafny maps. Each operation returns `Updated(store, result)`, where `result` is what the source function returns. The fail-soft storage read and the save behind the tables are modelled separately in `Storage`, over a raw string map with `JSON.parse`/`JSON.stringify` passed in as functions.
- **the comment forest** (`src/components/CommentSection.tsx`, without markup). This covers top-level comments, the replies of a comment, the recursive `CommentTree` with its hidden-comment placeholder, the submit handler's blank-draft guard and refresh, and the header count. This part is in module `Comments`.
- **`timeAgo`** (`src/utils/dateUtils.ts`). This is the integer cascade from elapsed seconds to a year, month, day, hour or minute count, or "just now". It is in module `Dates`.

Modules: `Options` (the optional value), `Seqs` (order-preserving filter), `Storage`, `Interactions`, `Comments`, `Dates`.

Three facts about the code shape the model:

- Hiding a comment also hides its replies. `CommentTree` draws the replies only in its non-hidden branch (`src/components/CommentSection.tsx:64-134`), so a reply to a hidden comment is drawn nowhere (`Comments.HiddenCollapsesReplies`). When ids identify comments, every deeper descendant is drawn nowhere as well (`Comments.HiddenCollapsesDescendants`).
- Comment ids come from `Date.now()`. The id is therefore a parameter, and no operation claims anything about the order or uniqueness of ids. The termination result `Comments.RenderForestFinishes` names its assumption, that ids identify comments and are non-zero, as a precondition.
- Clicking the same vote button twice has an outcome that depends on the stored vote before. `Interactions.SameDirectionTwice` states all three cases, and `Interactions.FreshVoteUndone` states the first:
  - from a vote reading 0, the count is restored and no vote is left;
  - from a vote equal to that button's direction, both the count and the vote are restored;
  - from any other non-zero vote, such as the opposite one, the vote ends at 0 and the count ends at the starting count minus the old vote.

## Model

| member | source | states |
|---|---|---|
| Storage.GetStorageData | src/utils/interactionUtils.ts:56-68 | a missing key, an empty payload or an unparsable payload yields the caller's default; a present, non-empty payload that parses yields the parsed value; never an error |
| Storage.SaveStorageData | src/utils/interactionUtils.ts:71-74 | the key now holds the serialized value; every other key keeps its payload |
| Storage.SaveThenGet | src/utils/interactionUtils.ts:56-74 | reading back a saved value returns it when the codec round-trips |
| Storage.SaveIsolated | src/utils/interactionUtils.ts:70-74 | saving under one storage key never changes what another key reads |
| Storage.CorruptReadsAsMissing | src/utils/interactionUtils.ts:62-67 | a payload that fails to parse reads exactly as if the key were absent |
| Storage.TableKeysDistinct | src/utils/interactionUtils.ts:2-8 | the four fixed table keys differ pairwise, no comment-thread key equals one of them, and no accepted-answer key equals any of them or a thread key, so each table has a storage slot of its own |
| Interactions.GetUserVote | src/utils/interactionUtils.ts:105-109 | an absent vote record reads as 0; otherwise the stored vote |
| Interactions.HandleVote | src/utils/interactionUtils.ts:77-102 | returned − current count equals new − old stored vote; same direction retracts (vote 0, count − voteType); otherwise vote := voteType, count − old + voteType; only this key of the votes table changes |
| Interactions.VoteStepBounded | src/utils/interactionUtils.ts:86-97 | on votes in {−1,0,1}, a click keeps them there and moves the count by at most 2 |
| Interactions.CastVotes | src/components/VotingControls.tsx:44-48 | repeated clicks, each fed the count the previous one returned, change only this key's vote record and no other table; after at least one click the record exists |
| Interactions.CastVotesKeepsBase | src/components/VotingControls.tsx:44-48 | feeding each returned count into the next click keeps count − stored vote constant over any click sequence |
| Interactions.SameDirectionTwice | src/utils/interactionUtils.ts:86-97 | the same button twice: from the vote it sets, vote and count return; otherwise vote ends 0 and count is count − old vote |
| Interactions.FreshVoteUndone | src/utils/interactionUtils.ts:86-109 | with no prior vote, a click gives count + voteType and vote voteType, and a second click restores the count with vote 0 |
| Interactions.SwitchUpToDown | src/utils/interactionUtils.ts:94-97 | switching an upvote to a downvote lowers the count by 2 and stores −1 |
| Interactions.ToggleMark | src/utils/interactionUtils.ts:116-128 | returns the negation of prior membership, membership afterwards equals it, a new marker holds the given value, other keys untouched |
| Interactions.IsFavorited | src/utils/interactionUtils.ts:132-136 | true iff a favourite marker is stored for this type and id (a stored marker is an object, so `!!` makes it true) |
| Interactions.ToggleFavorite | src/utils/interactionUtils.ts:112-129 | returns !isFavorited before, isFavorited after equals the result; other keys and all other tables unchanged |
| Interactions.ToggleFavoriteTwice | src/utils/interactionUtils.ts:112-136 | two toggles restore favourite membership of every key |
| Interactions.IsHidden | src/utils/interactionUtils.ts:159-163 | true iff a hidden marker is stored for this type and id |
| Interactions.ToggleHide | src/utils/interactionUtils.ts:139-156 | returns !isHidden before, isHidden after equals the result; other keys and all other tables (favourites included) unchanged |
| Interactions.ToggleHideTwice | src/utils/interactionUtils.ts:139-163 | two toggles restore hidden membership of every key |
| Interactions.ToggleHideOtherKeys | src/utils/interactionUtils.ts:139-163 | toggling one key never changes isHidden of another key |
| Interactions.IsReported | src/utils/interactionUtils.ts:189-193 | true iff a report is stored for this type and id |
| Interactions.ReportContent | src/utils/interactionUtils.ts:166-186 | returns true iff not yet reported, stores {reason, timestamp} then; a repeat returns false and changes nothing; isReported holds afterwards |
| Interactions.ReportIsOneShot | src/utils/interactionUtils.ts:166-193 | two reports return true then false and the first reason is kept |
| Interactions.GetComments | src/utils/interactionUtils.ts:228-231 | a thread with no stored list reads as empty; otherwise the result is the stored list |
| Interactions.NewComment | src/utils/interactionUtils.ts:210-219 | the new record carries the given id, text, timestamp and verbatim parentId, authored by user 1 |
| Interactions.AddComment | src/utils/interactionUtils.ts:196-225 | exactly one record appended at the end of that thread, earlier records kept, the returned id is the new record's id, other threads and tables unchanged |
| Interactions.AddCommentOtherThreads | src/utils/interactionUtils.ts:204-222 | adding to one thread leaves every other thread's list as it was |
| Interactions.IsAnswerAccepted | src/utils/interactionUtils.ts:250-254 | true iff the question's stored accepted answer is this answer; then no other answer reads as accepted |
| Interactions.ToggleAcceptAnswer | src/utils/interactionUtils.ts:234-247 | returns !isAnswerAccepted before, isAnswerAccepted after equals the result, and no other answer of that question is accepted afterwards |
| Interactions.AtMostOneAccepted | src/utils/interactionUtils.ts:249-254 | a question never has two accepted answers |
| Interactions.AcceptingAnotherReplaces | src/utils/interactionUtils.ts:234-254 | accepting b while a is accepted returns true, accepts b and un-accepts a |
| Interactions.AcceptTwice | src/utils/interactionUtils.ts:234-254 | accepting twice returns true then false and leaves the answer un-accepted |
| Seqs.Filter | src/components/CommentSection.tsx:52-56 | the kept elements are exactly those satisfying the test |
| Seqs.FilterAppend | src/components/CommentSection.tsx:52-56 | filtering distributes over concatenation, so storage order is kept |
| Seqs.FilterKeepsAll | src/components/CommentSection.tsx:52 | the filter keeps every element iff every element passes |
| Comments.SkipLeading | src/components/CommentSection.tsx:35 | the end of the longest whitespace run starting at i: everything before it is whitespace and the character there, if any, is not |
| Comments.SkipTrailing | src/components/CommentSection.tsx:35 | the start of the longest whitespace run ending at hi within lo..hi: everything from it is whitespace and the character before it, if above lo, is not |
| Comments.Trim | src/components/CommentSection.tsx:35 | the result is the contiguous slice of the draft left after a whitespace prefix and a whitespace suffix, and it starts and ends with non-whitespace |
| Comments.IsBlank | src/components/CommentSection.tsx:35 | a draft is refused iff every character is whitespace |
| Comments.Roots | src/components/CommentSection.tsx:52 | top-level comments are exactly those with no parentId or parentId 0 |
| Comments.Children | src/components/CommentSection.tsx:56 | the replies of c are exactly the comments with parentId = c.id |
| Comments.AppendKeepsOrder | src/components/CommentSection.tsx:52-56 | an appended comment lands at the end of its parent's replies (and of the roots iff top level), earlier ones unchanged |
| Comments.RenderTree | src/components/CommentSection.tsx:55-134 | a finished rendering of c has c at its head, is a placeholder iff c is hidden, and otherwise shows one rendering per reply of c, in storage order; the same rules at every depth are `Comments.RenderTreeComplete` and `Comments.RenderTreeAnchored` |
| Comments.RenderAll | src/components/CommentSection.tsx:128-133 | the renderings are of the given comments, in order |
| Comments.RenderForest | src/components/CommentSection.tsx:184-188 | the forest has one tree per top-level comment, in storage order |
| Comments.RenderTreeAnchored | src/components/CommentSection.tsx:56-134 | every comment drawn in c's tree is c or a thread comment replying to a comment drawn in full, and those are never hidden |
| Comments.RenderAllAnchored | src/components/CommentSection.tsx:128-134 | the same, for a list of starting comments |
| Comments.RenderTreeComplete | src/components/CommentSection.tsx:55-134 | in c's tree, at every depth, every drawn comment that is not hidden is drawn in full, and every reply of a comment drawn in full is drawn |
| Comments.RenderAllComplete | src/components/CommentSection.tsx:128-133 | the same, for a list of starting comments |
| Comments.RenderForestComplete | src/components/CommentSection.tsx:184-188 | the forest draws every top-level comment, draws in full every drawn comment that is not hidden, and draws every reply of a comment drawn in full |
| Comments.ExpandedFromThread | src/components/CommentSection.tsx:52-56 | everything the forest draws is a comment of the thread |
| Comments.OrphansNeverShown | src/components/CommentSection.tsx:52-56 | a comment whose non-zero parentId names no comment of the thread is drawn nowhere |
| Comments.HiddenCollapsesReplies | src/components/CommentSection.tsx:64-134 | a reply to a hidden comment (non-zero parent id) is drawn nowhere |
| Comments.HiddenCollapsesDescendants | src/components/CommentSection.tsx:64-134 | with ids that identify comments and are non-zero, every comment at the end of a reply path starting at a hidden comment (its reply, the reply's reply, and so on) is drawn nowhere |
| Comments.RenderTreeFuelMonotone | src/components/CommentSection.tsx:55-134 | extra recursion depth never changes a finished rendering |
| Comments.RenderAllFuelMonotone | src/components/CommentSection.tsx:128-133 | the same, for a list of comments |
| Comments.RenderAllNeedsEach | src/components/CommentSection.tsx:130-132 | a list renders only if every comment in it renders |
| Comments.SelfReplyNeverFinishes | src/components/CommentSection.tsx:55-132 | a visible comment naming itself as parent never finishes rendering (there is no cycle guard) |
| Comments.ChainDistinctAt | src/components/CommentSection.tsx:52-56 | with ids that identify comments and are non-zero, a path from a top-level comment through successive replies never repeats a comment |
| Comments.ChainFits | src/components/CommentSection.tsx:52-56 | such a path is no longer than the thread |
| Comments.RenderTreeFinishes | src/components/CommentSection.tsx:55-134 | the last comment of such a path finishes rendering once the depth bound plus the path length exceeds the thread size |
| Comments.RenderAllFinishes | src/components/CommentSection.tsx:128-133 | the same for a list of comments each extending a path |
| Comments.RenderForestFinishes | src/components/CommentSection.tsx:184-188 | with ids that identify comments and are non-zero, the whole forest finishes rendering within depth equal to the number of comments |
| Comments.ThreeLevelThread | src/components/CommentSection.tsx:55-134 | comments 1, 2 replying to 1 and 3 replying to 2 render as one root showing one reply that shows one reply |
| Comments.HandleAddComment | src/components/CommentSection.tsx:34-43 | a blank draft changes nothing; otherwise the store is the one `addComment` leaves, the list becomes the re-read thread, the old thread plus the new record, and draft and reply target are cleared |
| Comments.ReplyLandsUnderParent | src/components/CommentSection.tsx:117-119 | replying from c makes the new comment the last of c's replies after the refresh |
| Comments.HideToggleCollapses | src/components/CommentSection.tsx:45-73 | after the hide toggle, c draws as a placeholder exactly when the toggle returned true |
| Comments.HeaderOf | src/components/CommentSection.tsx:146-148 | the header shows a count exactly when the list is shown, and the count is the number of top-level comments |
| Comments.HeaderCountsRoots | src/components/CommentSection.tsx:146-148 | the header count is the number of top-level comments: at most the total, equal iff no comment is a reply |
| Dates.ElapsedSeconds | src/utils/dateUtils.ts:19 | whole seconds elapsed, rounded toward minus infinity |
| Dates.TimeAgo | src/utils/dateUtils.ts:21-46 | years iff s ≥ 31536000 (count ≥ 1); months iff 2592000 ≤ s < 31536000 (1..12); days (1..29); hours (1..23); minutes (1..59); just now iff s < 60, negative s included; each count is the number of whole periods |
| Dates.TimeAgoSince | src/utils/dateUtils.ts:16-19 | an unparsable date gives "just now"; a parsed date gives the label of the whole seconds elapsed, which is "just now" exactly when less than 60000 ms have passed (a future date included) |
| Dates.LargestUnitWins | src/utils/dateUtils.ts:21-46 | the reported unit is the longest whose period fits, its count is ⌊s/period⌋ ≥ 1, and "just now" iff no period fits |
| Dates.UnitMonotone | src/utils/dateUtils.ts:21-46 | a longer elapsed time never gets a shorter unit |

## Left out

- `localStorage`, `JSON.parse` and `JSON.stringify`: storage is a map from key to text. Parsing and serializing are function parameters of `Storage`. `Interactions.Store` holds each table as `getStorageData` would decode it, so a corrupt table is the empty table.
- The `typeof window === 'undefined'` branch of the storage helpers (server-side rendering) is not modelled. On that branch every read gives the default and every save is dropped.
- The storage key strings `{type}_{id}` are modelled as the pair `Key(type, id)`. No type name contains `_`, so the string determines the pair.
- `Date.now()` and `new Date()` are parameters: comment ids and timestamps, marker timestamps, and elapsed time for `timeAgo`. Nothing is claimed about id uniqueness or order.
- Read-modify-write races between browser tabs are not modelled. Every operation is one sequential step.
- JavaScript numbers are unbounded integers here. Ids, counts and times beyond 2^53 lose precision in the source but not in the model. The one NaN case, an unparsable date in `timeAgo`, is modelled.
- A stored payload that parses to something other than the expected table is returned unchanged by `getStorageData` (`src/utils/interactionUtils.ts:63`). `Interactions.Store` holds only well-typed tables, so it cannot represent these states, which the source handles as follows:
  - `null`: every read of a table entry throws, at `votes[...]` (`:86`, `:108`), `favorites[...]` (`:116`, `:135`), `hidden[...]` (`:143`, `:162`) and `reported[...]` (`:174`, `:192`); so does `comments.push` (`:221`).
  - A number, string or boolean: reads find nothing and give 0 or false without throwing (`:86`, `:108`, `:116`, `:135`, `:143`, `:162`, `:174`, `:192`). The writes throw, because module code is strict: `:92`/`:96`, `:121`, `:148`, `:177`, and `comments.push` at `:221`.
  - An array in the votes, favourites, hidden or reported table: nothing throws. The write sets a named property that `JSON.stringify` drops at save, so nothing is stored. `toggleFavorite` and `toggleHide` return true on every call, and `handleVote` moves the count on every click while the stored vote stays 0.
  - A non-array object in a comment thread: `getComments` returns it as it is (`:230`), and `comments.push` throws at `:221`.
  - A non-number in an accepted-answer slot (`:236`, `:252`): it never equals an answer id under `===`, so it reads as not accepted, and `toggleAcceptAnswer` overwrites it with the clicked answer id and returns true.
- Interactions.GetUserVote: the stored vote is an integer. Other stored votes are not modelled, and the source treats them in two ways:
  - A falsy vote (NaN, `""`, `false`, `null`) reads as 0 through `|| 0` (`src/utils/interactionUtils.ts:86`, `:108`).
  - A truthy non-number is returned as it is. For example, `"up"` is returned as `"up"` at `:108`. In `handleVote`, `"up" === 1` is false at `:90`, so `:97` computes `currentCount - "up" + 1`, which is NaN, and `:96` stores the clicked vote. A stored `true` is coerced to 1 by `-` at `:97`.
- Dates.TimeAgo: the label is a datatype. The decimal text of the count and the fixed suffixes (`年前`, `个月前`, `天前`, `小时前`, `分钟前`, `刚刚`) are not built as strings.
- Comments.RenderTree: the recursion carries a depth bound (fuel), and None means the bound was reached. The model proves that more fuel never changes a finished rendering, that a self-parented visible comment never finishes, and (`Comments.RenderForestFinishes`) that the forest finishes within depth equal to the number of comments when ids identify comments and are non-zero. Threads with duplicate ids are not covered by that result.
- Comments.HiddenCollapsesDescendants: assumes ids identify comments. With a duplicate id, a grand-reply of a hidden comment can be drawn under the other comment that carries the id. For example, take comments 1 (top level, hidden), 2 (replying to 1), another 2 (top level) and 3 (replying to 2): comment 3 is drawn under the second 2. Only direct replies (`Comments.HiddenCollapsesReplies`) are covered without that assumption.
- `CommentSection.tsx` markup, CSS classes, the `level` indentation, the reply-input and show/hide-list toggles, and React effects are UI wiring and are not modelled. The `handleHideComment` re-render is covered only through `Comments.HideToggleCollapses`.
- Blank detection works on Unicode scalar values, while JavaScript strings are UTF-16. Every character `trim` strips lies in the Basic Multilingual Plane, so the two agree.
- `formatDate`, `src/data/mockData.ts` (random mock data), `src/components/ReportDialog.tsx`, the rest of `src/components/VotingControls.tsx`, and `astro.config.mjs` are display code, random data or build configuration, and are not part of this model.

=== FILE: comments.dfy ===
/** The non-rendering logic of the comment section
    (src/components/CommentSection.tsx): which comments are top level, which
    are replies to which, what the recursive `CommentTree` shows, and the
    submit handler's guard and refresh. Markup and styling are not modelled;
    a rendered tree is a `View`. */
module Comments {
  import opened Options
  import opened Seqs
  import opened Interactions

  // --------------------------------------------------------------- trim

  /** The characters `String.prototype.trim` strips: ECMAScript WhiteSpace and LineTerminator. */
  predicate IsWhitespace(ch: char)
  {
    || ch == '\t' || ch == '\n' || ch == '\U{B}' || ch == '\U{C}' || ch == '\r' || ch == ' '
    || ch == '\U{A0}' || ch == '\U{1680}' || ('\U{2000}' <= ch <= '\U{200A}')
    || ch == '\U{2028}' || ch == '\U{2029}' || ch == '\U{202F}' || ch == '\U{205F}'
    || ch == '\U{3000}' || ch == '\U{FEFF}'
  }

  /** The first index at or after `i` that does not hold whitespace, or `|s|`:
      where the leading whitespace of `s[i..]` ends. */
  function SkipLeading(s: string, i: nat): (k: nat)
    requires i <= |s|
    ensures i <= k <= |s|
    ensures forall m :: i <= m < k ==> IsWhitespace(s[m])
    ensures k < |s| ==> !IsWhitespace(s[k])
    decreases |s| - i
  {
    if i < |s| && IsWhitespace(s[i]) then SkipLeading(s, i + 1) else i
  }

  /** The index just past the last character of `s[lo..hi]` that is not
      whitespace, or `lo`: where the trailing whitespace of `s[lo..hi]` starts. */
  function SkipTrailing(s: string, lo: nat, hi: nat): (e: nat)
    requires lo <= hi <= |s|
    ensures lo <= e <= hi
    ensures forall m :: e <= m < hi ==> IsWhitespace(s[m])
    ensures e > lo ==> !IsWhitespace(s[e - 1])
    decreases hi - lo
  {
    if lo < hi && IsWhitespace(s[hi - 1]) then SkipTrailing(s, lo, hi - 1) else hi
  }

  /** `String.prototype.trim`: the slice of `s` left after removing the
      longest whitespace prefix and the longest whitespace suffix. */
  function Trim(s: string): (r: string)
    ensures SkipLeading(s, 0) + |r| <= |s| && r == s[SkipLeading(s, 0)..SkipLeading(s, 0) + |r|]
    ensures forall i :: 0 <= i < SkipLeading(s, 0) ==> IsWhitespace(s[i])
    ensures forall i :: SkipLeading(s, 0) + |r| <= i < |s| ==> IsWhitespace(s[i])
    ensures |r| > 0 ==> !IsWhitespace(r[0]) && !IsWhitespace(r[|r| - 1])
  {
    var k := SkipLeading(s, 0);
    s[k..SkipTrailing(s, k, |s|)]
  }

  /** A draft is blank, and is refused, exactly when `trim()` leaves nothing,
      that is when every character is whitespace. */
  predicate IsBlank(text: string)
    ensures IsBlank(text) <==> forall i :: 0 <= i < |text| ==> IsWhitespace(text[i])
  {
    Trim(text) == ""
  }

  // ------------------------------------------------- roots and children

  /** `!comment.parentId`: no parent, or the falsy parent 0. */
  predicate IsTopLevel(c: CommentRecord)
  {
    c.parentId.None? || c.parentId == Some(0)
  }

  /** `topLevelComments`, in storage order. */
  function Roots(cs: seq<CommentRecord>): (r: seq<CommentRecord>)
    ensures forall c :: c in r <==> c in cs && IsTopLevel(c)
  {
    Filter(cs, IsTopLevel)
  }

  /** The test `c => c.parentId === parent.id`. */
  function ReplyTo(parent: CommentRecord): CommentRecord -> bool
  {
    (c: CommentRecord) => c.parentId == Some(parent.id)
  }

  /** `childComments` of `parent`, in storage order. */
  function Children(cs: seq<CommentRecord>, parent: CommentRecord): (r: seq<CommentRecord>)
    ensures forall c :: c in r <==> c in cs && c.parentId == Some(parent.id)
  {
    Filter(cs, ReplyTo(parent))
  }

  /** Appending a comment appends it to its parent's replies and nowhere else,
      and appends it to the roots exactly when it is top level. */
  lemma AppendKeepsOrder(cs: seq<CommentRecord>, c: CommentRecord, parent: CommentRecord)
    ensures Children(cs + [c], parent)
         == Children(cs, parent) + (if c.parentId == Some(parent.id) then [c] else [])
    ensures Roots(cs + [c]) == Roots(cs) + (if IsTopLevel(c) then [c] else [])
  {
    FilterSnoc(cs, c, ReplyTo(parent));
    FilterSnoc(cs, c, IsTopLevel);
  }

  // ------------------------------------------------------------ render

  /** What `CommentTree` draws for one comment: the "hidden" placeholder, or
      the comment with its rendered replies. */
  datatype View = Placeholder(comment: CommentRecord) | Shown(comment: CommentRecord, replies: seq<View>)

  /** The comments at the heads of a sequence of views. */
  function Heads(vs: seq<View>): seq<CommentRecord>
  {
    seq(|vs|, i requires 0 <= i < |vs| => vs[i].comment)
  }

  /** `CommentTree` for `c` against the thread `cs`. The source recursion has
      no cycle guard; `fuel` bounds the depth and None means the bound was
      reached before the recursion finished. */
  function RenderTree(cs: seq<CommentRecord>, s: Store, c: CommentRecord, fuel: nat): (r: Option<View>)
    ensures r.Some? ==> r.value.comment == c
    ensures r.Some? ==> (r.value.Placeholder? <==> IsHidden(s, c.id, Comment))
    ensures r.Some? && r.value.Shown? ==> Heads(r.value.replies) == Children(cs, c)
    decreases fuel, 0
  {
    if fuel == 0 then None
    else if IsHidden(s, c.id, Comment) then Some(Placeholder(c))
    else match RenderAll(cs, s, Children(cs, c), fuel - 1)
      case None => None
      case Some(vs) => Some(Shown(c, vs))
  }

  /** `CommentTree` over each of `xs` in turn. */
  function RenderAll(cs: seq<CommentRecord>, s: Store, xs: seq<CommentRecord>, fuel: nat): (r: Option<seq<View>>)
    ensures r.Some? ==> Heads(r.value) == xs
    decreases fuel, |xs|
  {
    if |xs| == 0 then Some([])
    else match RenderTree(cs, s, xs[0], fuel)
      case None => None
      case Some(v) =>
        match RenderAll(cs, s, xs[1..], fuel)
        case None => None
        case Some(vs) => Some([v] + vs)
  }

  /** The list below the header: a tree for each top-level comment. */
  function RenderForest(cs: seq<CommentRecord>, s: Store, fuel: nat): (r: Option<seq<View>>)
    ensures r.Some? ==> Heads(r.value) == Roots(cs)
  {
    RenderAll(cs, s, Roots(cs), fuel)
  }

  /** Every comment drawn, as placeholder or in full. */
  function Entries(vs: seq<View>): set<CommentRecord>
    decreases vs
  {
    if |vs| == 0 then {} else EntriesOf(vs[0]) + Entries(vs[1..])
  }

  function EntriesOf(v: View): set<CommentRecord>
    decreases v
  {
    match v
    case Placeholder(c) => {c}
    case Shown(c, rs) => {c} + Entries(rs)
  }

  /** The comments drawn in full (not collapsed to a placeholder). */
  function Expanded(vs: seq<View>): set<CommentRecord>
    decreases vs
  {
    if |vs| == 0 then {} else ExpandedOf(vs[0]) + Expanded(vs[1..])
  }

  function ExpandedOf(v: View): set<CommentRecord>
    decreases v
  {
    match v
    case Placeholder(_) => {}
    case Shown(c, rs) => {c} + Expanded(rs)
  }

  /** Every drawn comment is one of the starting comments `xs` or a reply to a
      comment drawn in full; comments drawn in full are not hidden; and
      everything drawn below `xs` comes from the thread. */
  ghost predicate Anchored(cs: seq<CommentRecord>, s: Store, xs: seq<CommentRecord>, vs: seq<View>)
  {
    && (forall x :: x in Entries(vs) ==>
          x in xs || (x in cs && exists y :: y in Expanded(vs) && x.parentId == Some(y.id)))
    && (forall y :: y in Expanded(vs) ==> y in Entries(vs) && !IsHidden(s, y.id, Comment))
  }

  lemma {:induction false} RenderTreeAnchored(cs: seq<CommentRecord>, s: Store, c: CommentRecord, fuel: nat)
    requires RenderTree(cs, s, c, fuel).Some?
    ensures Anchored(cs, s, [c], [RenderTree(cs, s, c, fuel).value])
    decreases fuel, 0
  {
    var v := RenderTree(cs, s, c, fuel).value;
    assert [v][1..] == [];
    assert Entries([v]) == EntriesOf(v);
    assert Expanded([v]) == ExpandedOf(v);
    if v.Shown? {
      var kids := Children(cs, c);
      RenderAllAnchored(cs, s, kids, fuel - 1);
      forall x | x in Entries(v.replies)
        ensures x in cs && exists y :: y in ExpandedOf(v) && x.parentId == Some(y.id)
      {
        if x in kids {
          assert c in ExpandedOf(v);
        } else {
          var y :| y in Expanded(v.replies) && x.parentId == Some(y.id);
          assert y in ExpandedOf(v);
        }
      }
    }
  }

  lemma {:induction false} RenderAllAnchored(cs: seq<CommentRecord>, s: Store, xs: seq<CommentRecord>, fuel: nat)
    requires RenderAll(cs, s, xs, fuel).Some?
    ensures Anchored(cs, s, xs, RenderAll(cs, s, xs, fuel).value)
    decreases fuel, |xs|
  {
    var vs := RenderAll(cs, s, xs, fuel).value;
    if |xs| > 0 {
      var v := RenderTree(cs, s, xs[0], fuel).value;
      var rest := RenderAll(cs, s, xs[1..], fuel).value;
      assert vs == [v] + rest;
      assert vs[1..] == rest;
      RenderTreeAnchored(cs, s, xs[0], fuel);
      RenderAllAnchored(cs, s, xs[1..], fuel);
      assert [v][1..] == [];
      assert Entries([v]) == EntriesOf(v);
      assert Expanded([v]) == ExpandedOf(v);
      forall x | x in Entries(vs) && x !in xs
        ensures x in cs && exists y :: y in Expanded(vs) && x.parentId == Some(y.id)
      {
        if x in EntriesOf(v) {
          var y :| y in ExpandedOf(v) && x.parentId == Some(y.id);
          assert y in Expanded(vs);
        } else {
          assert x in Entries(rest);
          var y :| y in Expanded(rest) && x.parentId == Some(y.id);
          assert y in Expanded(vs);
        }
      }
    }
  }

  /** The converse of `Anchored`: every drawn comment that is not hidden is
      drawn in full, and every reply of a comment drawn in full is drawn. */
  ghost predicate Complete(cs: seq<CommentRecord>, s: Store, vs: seq<View>)
  {
    && (forall y :: y in Entries(vs) && !IsHidden(s, y.id, Comment) ==> y in Expanded(vs))
    && (forall y, x :: y in Expanded(vs) && x in cs && x.parentId == Some(y.id) ==> x in Entries(vs))
  }

  /** The head comment of every view in a list is drawn. */
  lemma {:induction false} HeadsDrawn(vs: seq<View>)
    ensures forall i :: 0 <= i < |vs| ==> vs[i].comment in Entries(vs)
  {
    if |vs| > 0 {
      HeadsDrawn(vs[1..]);
      forall i | 0 <= i < |vs|
        ensures vs[i].comment in Entries(vs)
      {
        if i > 0 {
          assert vs[i] == vs[1..][i - 1];
        }
      }
    }
  }

  lemma {:induction false} RenderTreeComplete(cs: seq<CommentRecord>, s: Store, c: CommentRecord, fuel: nat)
    requires RenderTree(cs, s, c, fuel).Some?
    ensures Complete(cs, s, [RenderTree(cs, s, c, fuel).value])
    decreases fuel, 0
  {
    var v := RenderTree(cs, s, c, fuel).value;
    assert [v][1..] == [];
    assert Entries([v]) == EntriesOf(v);
    assert Expanded([v]) == ExpandedOf(v);
    if v.Shown? {
      var kids := Children(cs, c);
      RenderAllComplete(cs, s, kids, fuel - 1);
      HeadsDrawn(v.replies);
      forall y, x | y in ExpandedOf(v) && x in cs && x.parentId == Some(y.id)
        ensures x in EntriesOf(v)
      {
        if y == c {
          assert x in Heads(v.replies);
          var i :| 0 <= i < |v.replies| && Heads(v.replies)[i] == x;
          assert v.replies[i].comment == x;
        }
      }
    }
  }

  lemma {:induction false} RenderAllComplete(cs: seq<CommentRecord>, s: Store, xs: seq<CommentRecord>, fuel: nat)
    requires RenderAll(cs, s, xs, fuel).Some?
    ensures Complete(cs, s, RenderAll(cs, s, xs, fuel).value)
    decreases fuel, |xs|
  {
    var vs := RenderAll(cs, s, xs, fuel).value;
    if |xs| > 0 {
      var v := RenderTree(cs, s, xs[0], fuel).value;
      var rest := RenderAll(cs, s, xs[1..], fuel).value;
      assert vs == [v] + rest;
      assert vs[1..] == rest;
      RenderTreeComplete(cs, s, xs[0], fuel);
      RenderAllComplete(cs, s, xs[1..], fuel);
      assert [v][1..] == [];
      assert Entries([v]) == EntriesOf(v);
      assert Expanded([v]) == ExpandedOf(v);
      assert Entries(vs) == EntriesOf(v) + Entries(rest);
      assert Expanded(vs) == ExpandedOf(v) + Expanded(rest);
    }
  }

  /** The forest draws every top-level comment, draws in full every drawn
      comment that is not hidden, and draws every reply of a comment drawn in
      full: `CommentTree` recurses into every reply at every depth. */
  lemma RenderForestComplete(cs: seq<CommentRecord>, s: Store, fuel: nat)
    requires RenderForest(cs, s, fuel).Some?
    ensures forall x :: x in Roots(cs) ==> x in Entries(RenderForest(cs, s, fuel).value)
    ensures Complete(cs, s, RenderForest(cs, s, fuel).value)
  {
    var vs := RenderForest(cs, s, fuel).value;
    RenderAllComplete(cs, s, Roots(cs), fuel);
    HeadsDrawn(vs);
    forall x | x in Roots(cs)
      ensures x in Entries(vs)
    {
      assert x in Heads(vs);
      var i :| 0 <= i < |vs| && Heads(vs)[i] == x;
      assert vs[i].comment == x;
    }
  }

  /** A comment whose parent id names no comment of the thread, and is not the
      falsy 0, is drawn nowhere: it is neither a root nor anyone's reply. */
  lemma OrphansNeverShown(cs: seq<CommentRecord>, s: Store, fuel: nat, x: CommentRecord, p: int)
    requires RenderForest(cs, s, fuel).Some?
    requires x.parentId == Some(p) && p != 0
    requires forall y :: y in cs ==> y.id != p
    ensures x !in Entries(RenderForest(cs, s, fuel).value)
  {
    var vs := RenderForest(cs, s, fuel).value;
    RenderAllAnchored(cs, s, Roots(cs), fuel);
    ExpandedFromThread(cs, s, vs, fuel);
  }

  /** Everything drawn in the forest comes from the thread. */
  lemma ExpandedFromThread(cs: seq<CommentRecord>, s: Store, vs: seq<View>, fuel: nat)
    requires RenderForest(cs, s, fuel) == Some(vs)
    ensures forall y :: y in Entries(vs) ==> y in cs
    ensures forall y :: y in Expanded(vs) ==> y in cs
  {
    RenderAllAnchored(cs, s, Roots(cs), fuel);
  }

  /** The replies of a hidden comment are not drawn: the child list sits in the
      non-hidden branch, so a reply to a hidden id can only be drawn as a root. */
  lemma HiddenCollapsesReplies(cs: seq<CommentRecord>, s: Store, fuel: nat, x: CommentRecord, p: int)
    requires RenderForest(cs, s, fuel).Some?
    requires IsHidden(s, p, Comment)
    requires x.parentId == Some(p) && p != 0
    ensures x !in Entries(RenderForest(cs, s, fuel).value)
  {
    RenderAllAnchored(cs, s, Roots(cs), fuel);
  }

  /** More fuel never changes a finished rendering. */
  lemma {:induction false} RenderTreeFuelMonotone(cs: seq<CommentRecord>, s: Store, c: CommentRecord, fuel: nat)
    requires RenderTree(cs, s, c, fuel).Some?
    ensures RenderTree(cs, s, c, fuel + 1) == RenderTree(cs, s, c, fuel)
    decreases fuel, 0
  {
    if !IsHidden(s, c.id, Comment) {
      RenderAllFuelMonotone(cs, s, Children(cs, c), fuel - 1);
    }
  }

  lemma {:induction false} RenderAllFuelMonotone(cs: seq<CommentRecord>, s: Store, xs: seq<CommentRecord>, fuel: nat)
    requires RenderAll(cs, s, xs, fuel).Some?
    ensures RenderAll(cs, s, xs, fuel + 1) == RenderAll(cs, s, xs, fuel)
    decreases fuel, |xs|
  {
    if |xs| > 0 {
      RenderTreeFuelMonotone(cs, s, xs[0], fuel);
      RenderAllFuelMonotone(cs, s, xs[1..], fuel);
    }
  }

  /** A rendered list contains a rendering of each of its comments. */
  lemma {:induction false} RenderAllNeedsEach(cs: seq<CommentRecord>, s: Store, xs: seq<CommentRecord>, fuel: nat, i: int)
    requires 0 <= i < |xs|
    ensures RenderAll(cs, s, xs, fuel).Some? ==> RenderTree(cs, s, xs[i], fuel).Some?
    decreases |xs|
  {
    if i > 0 {
      RenderAllNeedsEach(cs, s, xs[1..], fuel, i - 1);
    }
  }

  /** Without a cycle guard, a visible comment that names itself as parent
      never finishes rendering, however much fuel is given. */
  lemma {:induction false} SelfReplyNeverFinishes(cs: seq<CommentRecord>, s: Store, c: CommentRecord, fuel: nat)
    requires c in cs && c.parentId == Some(c.id)
    requires !IsHidden(s, c.id, Comment)
    ensures RenderTree(cs, s, c, fuel).None?
    decreases fuel
  {
    if fuel > 0 {
      var kids := Children(cs, c);
      assert c in kids;
      var i :| 0 <= i < |kids| && kids[i] == c;
      SelfReplyNeverFinishes(cs, s, c, fuel - 1);
      RenderAllNeedsEach(cs, s, kids, fuel - 1, i);
    }
  }

  /** Ids identify comments and none is the falsy 0, as ids from `Date.now()` are. */
  ghost predicate WellIdentified(cs: seq<CommentRecord>)
  {
    && (forall x, y :: x in cs && y in cs && x.id == y.id ==> x == y)
    && (forall x :: x in cs ==> x.id != 0)
  }

  /** Comments of the thread, each a reply to the one before it. */
  ghost predicate IsReplyPath(cs: seq<CommentRecord>, path: seq<CommentRecord>)
  {
    && |path| > 0
    && (forall i :: 0 <= i < |path| ==> path[i] in cs)
    && (forall i :: 0 < i < |path| ==> path[i].parentId == Some(path[i - 1].id))
  }

  /** A path the recursion can take: a top-level comment, then a reply to it,
      then a reply to that, and so on. */
  ghost predicate IsChain(cs: seq<CommentRecord>, chain: seq<CommentRecord>)
  {
    IsReplyPath(cs, chain) && IsTopLevel(chain[0])
  }

  /** With well-identified comments no chain revisits a comment: a root has no
      parent among them, and two equal links have equal predecessors. */
  lemma {:induction false} ChainDistinctAt(cs: seq<CommentRecord>, chain: seq<CommentRecord>, i: int, j: int)
    requires WellIdentified(cs) && IsChain(cs, chain)
    requires 0 <= i < j < |chain|
    ensures chain[i] != chain[j]
    decreases i
  {
    assert chain[j - 1] in cs && chain[j].parentId == Some(chain[j - 1].id);
    if i > 0 {
      assert chain[i - 1] in cs && chain[i].parentId == Some(chain[i - 1].id);
      ChainDistinctAt(cs, chain, i - 1, j - 1);
    }
  }

  /** A chain is never longer than the thread. */
  lemma ChainFits(cs: seq<CommentRecord>, chain: seq<CommentRecord>)
    requires WellIdentified(cs) && IsChain(cs, chain)
    ensures |chain| <= |cs|
  {
    forall i, j | 0 <= i < j < |chain|
      ensures chain[i] != chain[j]
    {
      ChainDistinctAt(cs, chain, i, j);
    }
    DistinctFits(chain, cs);
  }

  /** The last comment of a chain finishes rendering once the fuel covers the
      rest of the thread. */
  lemma {:induction false} RenderTreeFinishes(cs: seq<CommentRecord>, s: Store, chain: seq<CommentRecord>, fuel: nat)
    requires WellIdentified(cs) && IsChain(cs, chain)
    requires fuel + |chain| > |cs|
    ensures RenderTree(cs, s, chain[|chain| - 1], fuel).Some?
    decreases fuel, 0
  {
    ChainFits(cs, chain);
    var c := chain[|chain| - 1];
    if !IsHidden(s, c.id, Comment) {
      var kids := Children(cs, c);
      forall i | 0 <= i < |kids|
        ensures IsChain(cs, chain + [kids[i]])
      {
        assert kids[i] in kids;
        ChainExtends(cs, chain, kids[i]);
      }
      RenderAllFinishes(cs, s, chain, kids, fuel - 1);
    }
  }

  /** A reply to the last comment of a chain extends it. */
  lemma ChainExtends(cs: seq<CommentRecord>, chain: seq<CommentRecord>, x: CommentRecord)
    requires IsChain(cs, chain) && x in cs && x.parentId == Some(chain[|chain| - 1].id)
    ensures IsChain(cs, chain + [x])
  {
    var longer := chain + [x];
    forall k | 0 < k < |longer|
      ensures longer[k].parentId == Some(longer[k - 1].id)
    {
      if k < |chain| {
        assert longer[k] == chain[k] && longer[k - 1] == chain[k - 1];
      }
    }
  }

  /** Each of `xs` extends `chain` to a chain, so each finishes rendering. */
  lemma {:induction false} RenderAllFinishes(cs: seq<CommentRecord>, s: Store, chain: seq<CommentRecord>,
                                             xs: seq<CommentRecord>, fuel: nat)
    requires WellIdentified(cs)
    requires forall i :: 0 <= i < |xs| ==> IsChain(cs, chain + [xs[i]])
    requires fuel + |chain| + 1 > |cs|
    ensures RenderAll(cs, s, xs, fuel).Some?
    decreases fuel, |xs|
  {
    if |xs| > 0 {
      var first := chain + [xs[0]];
      assert first[|first| - 1] == xs[0];
      RenderTreeFinishes(cs, s, first, fuel);
      forall i | 0 <= i < |xs[1..]|
        ensures IsChain(cs, chain + [xs[1..][i]])
      {
        assert xs[1..][i] == xs[i + 1];
      }
      RenderAllFinishes(cs, s, chain, xs[1..], fuel);
    }
  }

  /** When ids identify comments and none is 0, the forest finishes rendering
      with recursion depth at most the number of comments: a top-level comment
      cannot lie on a parent cycle, so none is reachable from the roots. */
  lemma RenderForestFinishes(cs: seq<CommentRecord>, s: Store)
    requires WellIdentified(cs)
    ensures RenderForest(cs, s, |cs|).Some?
  {
    var roots := Roots(cs);
    forall i | 0 <= i < |roots|
      ensures IsChain(cs, [] + [roots[i]])
    {
      assert roots[i] in roots;
      assert [] + [roots[i]] == [roots[i]];
    }
    RenderAllFinishes(cs, s, [], roots, |cs|);
  }

  /** Along a reply path from a hidden comment, no comment is drawn in full:
      the first is a placeholder, and with ids that identify comments each
      later one could only be drawn in full under the one before it. */
  lemma {:induction false} HiddenPathNotExpanded(cs: seq<CommentRecord>, s: Store, fuel: nat,
                                                 path: seq<CommentRecord>, k: int)
    requires WellIdentified(cs) && RenderForest(cs, s, fuel).Some?
    requires IsReplyPath(cs, path) && IsHidden(s, path[0].id, Comment)
    requires 0 <= k < |path|
    ensures path[k] !in Expanded(RenderForest(cs, s, fuel).value)
    decreases k
  {
    ExpandedIsVisible(cs, s, fuel, path[k]);
    if k > 0 {
      HiddenPathNotExpanded(cs, s, fuel, path, k - 1);
      DrawnUnderParent(cs, s, fuel, path[k], path[k - 1]);
    }
  }

  /** A comment drawn in full is drawn, and is not hidden. */
  lemma ExpandedIsVisible(cs: seq<CommentRecord>, s: Store, fuel: nat, x: CommentRecord)
    requires RenderForest(cs, s, fuel).Some?
    ensures x in Expanded(RenderForest(cs, s, fuel).value) ==>
              x in Entries(RenderForest(cs, s, fuel).value) && !IsHidden(s, x.id, Comment)
  {
    RenderAllAnchored(cs, s, Roots(cs), fuel);
  }

  /** Every descendant of a hidden comment is drawn nowhere, when ids
      identify comments and none is 0. */
  lemma HiddenCollapsesDescendants(cs: seq<CommentRecord>, s: Store, fuel: nat, path: seq<CommentRecord>)
    requires WellIdentified(cs) && RenderForest(cs, s, fuel).Some?
    requires IsReplyPath(cs, path) && |path| >= 2 && IsHidden(s, path[0].id, Comment)
    ensures path[|path| - 1] !in Entries(RenderForest(cs, s, fuel).value)
  {
    var n := |path| - 1;
    HiddenPathNotExpanded(cs, s, fuel, path, n - 1);
    DrawnUnderParent(cs, s, fuel, path[n], path[n - 1]);
  }

  /** With ids that identify comments and are non-zero, a reply to `p` is
      drawn only below `p` drawn in full. */
  lemma DrawnUnderParent(cs: seq<CommentRecord>, s: Store, fuel: nat, x: CommentRecord, p: CommentRecord)
    requires WellIdentified(cs) && RenderForest(cs, s, fuel).Some?
    requires p in cs && x.parentId == Some(p.id)
    ensures x in Entries(RenderForest(cs, s, fuel).value) ==> p in Expanded(RenderForest(cs, s, fuel).value)
  {
    var vs := RenderForest(cs, s, fuel).value;
    RenderAllAnchored(cs, s, Roots(cs), fuel);
    ExpandedFromThread(cs, s, vs, fuel);
    if x in Entries(vs) {
      assert !IsTopLevel(x);
      var y :| y in Expanded(vs) && x.parentId == Some(y.id);
      assert y in cs;
    }
  }

  /** One step of `CommentTree` on a visible comment whose replies rendered. */
  lemma RenderVisible(cs: seq<CommentRecord>, s: Store, x: CommentRecord, fuel: nat, vs: seq<View>)
    requires fuel > 0 && !IsHidden(s, x.id, Comment)
    requires RenderAll(cs, s, Children(cs, x), fuel - 1) == Some(vs)
    ensures RenderTree(cs, s, x, fuel) == Some(Shown(x, vs))
  {
  }

  /** A one-comment list renders as that comment's tree. */
  lemma RenderSingle(cs: seq<CommentRecord>, s: Store, x: CommentRecord, fuel: nat, v: View)
    requires RenderTree(cs, s, x, fuel) == Some(v)
    ensures RenderAll(cs, s, [x], fuel) == Some([v])
  {
    assert [x][0] == x && [x][1..] == [];
    assert RenderAll(cs, s, [x][1..], fuel) == Some([]);
    assert [v] + [] == [v];
  }

  /** The thread 1, 2 replying to 1, 3 replying to 2 renders as one root with
      one reply that has one reply. */
  lemma ThreeLevelThread(a: CommentRecord, b: CommentRecord, c: CommentRecord)
    requires a.id == 1 && a.parentId.None?
    requires b.id == 2 && b.parentId == Some(1)
    requires c.id == 3 && c.parentId == Some(2)
    ensures RenderForest([a, b, c], Empty, 3) == Some([Shown(a, [Shown(b, [Shown(c, [])])])])
  {
    var cs := [a, b, c];
    ThreeLevelRoots(a, b, c);
    ChildrenOfThree(a, b, c, a);
    ChildrenOfThree(a, b, c, b);
    ChildrenOfThree(a, b, c, c);
    assert Children(cs, a) == [b] && Children(cs, b) == [c] && Children(cs, c) == [];
    var vc := Shown(c, []);
    var vb := Shown(b, [vc]);
    var va := Shown(a, [vb]);
    RenderVisible(cs, Empty, c, 1, []);
    RenderSingle(cs, Empty, c, 1, vc);
    RenderVisible(cs, Empty, b, 2, [vc]);
    RenderSingle(cs, Empty, b, 2, vb);
    RenderVisible(cs, Empty, a, 3, [vb]);
    RenderSingle(cs, Empty, a, 3, va);
  }

  /** Only the first comment of the three-level thread is top level. */
  lemma ThreeLevelRoots(a: CommentRecord, b: CommentRecord, c: CommentRecord)
    requires a.parentId.None? && b.parentId == Some(1) && c.parentId == Some(2)
    ensures Roots([a, b, c]) == [a]
  {
    assert [a, b, c] == [a] + [b] + [c];
    FilterSingleton(a, IsTopLevel);
    FilterSingleton(b, IsTopLevel);
    FilterSingleton(c, IsTopLevel);
    FilterAppend([a], [b], IsTopLevel);
    FilterAppend([a] + [b], [c], IsTopLevel);
  }

  /** The replies of `p` within a three-comment thread, one element at a time. */
  lemma ChildrenOfThree(a: CommentRecord, b: CommentRecord, c: CommentRecord, p: CommentRecord)
    ensures Children([a, b, c], p)
         == (if a.parentId == Some(p.id) then [a] else [])
          + (if b.parentId == Some(p.id) then [b] else [])
          + (if c.parentId == Some(p.id) then [c] else [])
  {
    assert [a, b, c] == [a] + [b] + [c];
    FilterSingleton(a, ReplyTo(p));
    FilterSingleton(b, ReplyTo(p));
    FilterSingleton(c, ReplyTo(p));
    FilterAppend([a], [b], ReplyTo(p));
    FilterAppend([a] + [b], [c], ReplyTo(p));
  }

  // ------------------------------------------------------ section state

  /** The section's React state that the submit handler reads and writes. */
  datatype Section = Section(comments: seq<CommentRecord>, draft: string, replyingTo: Option<int>)

  /** `handleAddComment`: a blank draft is ignored; otherwise the draft is
      stored with `parentId`, the list is re-read from the store and the draft
      and reply target are cleared. */
  function HandleAddComment(s: Store, id: int, t: ThreadType, ui: Section, parentId: Option<int>,
                            newId: int, timestamp: int): (r: (Store, Section))
    ensures IsBlank(ui.draft) ==> r == (s, ui)
    ensures !IsBlank(ui.draft) ==> r.0 == AddComment(s, id, t, ui.draft, parentId, newId, timestamp).store
    ensures !IsBlank(ui.draft) ==>
              && r.1.comments == GetComments(r.0, id, t)
              && r.1.comments == GetComments(s, id, t) + [NewComment(newId, ui.draft, timestamp, parentId)]
              && r.1.draft == "" && r.1.replyingTo.None?
  {
    if IsBlank(ui.draft) then (s, ui)
    else
      var added := AddComment(s, id, t, ui.draft, parentId, newId, timestamp);
      var refreshed := GetComments(added.store, id, t);
      assert refreshed == refreshed[..|GetComments(s, id, t)|] + [refreshed[|GetComments(s, id, t)|]];
      (added.store, Section(refreshed, "", None))
  }

  /** Replying from comment `c` passes `c.id` as parent, so after the refresh
      the new comment is the last of `c`'s replies, after the earlier ones. */
  lemma ReplyLandsUnderParent(s: Store, id: int, t: ThreadType, ui: Section, c: CommentRecord,
                              newId: int, timestamp: int)
    requires !IsBlank(ui.draft)
    ensures var after := HandleAddComment(s, id, t, ui, Some(c.id), newId, timestamp).1.comments;
            Children(after, c)
              == Children(GetComments(s, id, t), c) + [NewComment(newId, ui.draft, timestamp, Some(c.id))]
  {
    AppendKeepsOrder(GetComments(s, id, t), NewComment(newId, ui.draft, timestamp, Some(c.id)), c);
  }

  /** `handleHideComment` followed by the re-render: the comment is drawn as a
      placeholder exactly when the toggle reports it is now hidden. */
  lemma HideToggleCollapses(cs: seq<CommentRecord>, s: Store, c: CommentRecord, now: int, fuel: nat)
    requires fuel > 0
    ensures var toggled := ToggleHide(s, c.id, Comment, now);
            var v := RenderTree(cs, toggled.store, c, fuel);
            toggled.result ==> v == Some(Placeholder(c))
    ensures var toggled := ToggleHide(s, c.id, Comment, now);
            var v := RenderTree(cs, toggled.store, c, fuel);
            v.Some? ==> (v.value.Placeholder? <==> toggled.result)
  {
  }

  /** The header text: the comment count when the list is shown, otherwise the "add a comment" prompt. */
  datatype Header = CommentCount(n: nat) | AddPrompt

  function HeaderOf(showComments: bool, cs: seq<CommentRecord>): (h: Header)
    ensures showComments <==> h.CommentCount?
    ensures h.CommentCount? ==> h.n == |Roots(cs)|
  {
    if showComments then CommentCount(|Roots(cs)|) else AddPrompt
  }

  /** The header counts top-level comments only: it equals the total exactly when no comment is a reply. */
  lemma HeaderCountsRoots(cs: seq<CommentRecord>)
    ensures HeaderOf(true, cs).n <= |cs|
    ensures HeaderOf(true, cs).n == |cs| <==> forall i :: 0 <= i < |cs| ==> IsTopLevel(cs[i])
  {
    FilterKeepsAll(cs, IsTopLevel);
  }
}

=== FILE: dates.dfy ===
/** The relative-time label `timeAgo` (src/utils/dateUtils.ts), on the
    elapsed time rather than on date strings and the wall clock. */
module Dates {
  import opened Options

  const SecondsPerYear := 31536000
  const SecondsPerMonth := 2592000
  const SecondsPerDay := 86400
  const SecondsPerHour := 3600
  const SecondsPerMinute := 60

  /** The label: `n 年前`, `n 个月前`, `n 天前`, `n 小时前`, `n 分钟前`, or `刚刚` ("just now"). */
  datatype Ago = Years(n: int) | Months(n: int) | Days(n: int) | Hours(n: int) | Minutes(n: int) | JustNow

  /** `Math.floor((now - then) / 1000)`: whole seconds elapsed between two
      millisecond clock readings, rounded toward minus infinity. */
  function ElapsedSeconds(nowMs: int, thenMs: int): (s: int)
    ensures s * 1000 <= nowMs - thenMs < s * 1000 + 1000
  {
    (nowMs - thenMs) / 1000
  }

  /** The cascade: divide by each period from the longest down and stop at the
      first quotient that is at least 1. Dafny's `/` with a positive divisor
      rounds toward minus infinity, as `Math.floor` does. */
  function TimeAgo(seconds: int): (r: Ago)
    ensures r.Years? <==> seconds >= SecondsPerYear
    ensures r.Years? ==> r.n >= 1 && r.n * SecondsPerYear <= seconds < (r.n + 1) * SecondsPerYear
    ensures r.Months? <==> SecondsPerMonth <= seconds < SecondsPerYear
    ensures r.Months? ==> 1 <= r.n <= 12 && r.n * SecondsPerMonth <= seconds < (r.n + 1) * SecondsPerMonth
    ensures r.Days? <==> SecondsPerDay <= seconds < SecondsPerMonth
    ensures r.Days? ==> 1 <= r.n <= 29 && r.n * SecondsPerDay <= seconds < (r.n + 1) * SecondsPerDay
    ensures r.Hours? <==> SecondsPerHour <= seconds < SecondsPerDay
    ensures r.Hours? ==> 1 <= r.n <= 23 && r.n * SecondsPerHour <= seconds < (r.n + 1) * SecondsPerHour
    ensures r.Minutes? <==> SecondsPerMinute <= seconds < SecondsPerHour
    ensures r.Minutes? ==> 1 <= r.n <= 59 && r.n * SecondsPerMinute <= seconds < (r.n + 1) * SecondsPerMinute
    ensures r.JustNow? <==> seconds < SecondsPerMinute
  {
    var years := seconds / SecondsPerYear;
    if years >= 1 then Years(years)
    else
      var months := seconds / SecondsPerMonth;
      if months >= 1 then Months(months)
      else
        var days := seconds / SecondsPerDay;
        if days >= 1 then Days(days)
        else
          var hours := seconds / SecondsPerHour;
          if hours >= 1 then Hours(hours)
          else
            var minutes := seconds / SecondsPerMinute;
            if minutes >= 1 then Minutes(minutes) else JustNow
  }

  /** `timeAgo(dateString)` at clock reading `nowMs`. An unparsable date
      (None) makes every quotient NaN, every comparison false, and the label
      "just now". */
  function TimeAgoSince(nowMs: int, postedMs: Option<int>): (r: Ago)
    ensures postedMs.None? ==> r == JustNow
    ensures postedMs.Some? && nowMs < postedMs.value ==> r == JustNow
    ensures r.JustNow? <==> postedMs.None? || nowMs - postedMs.value < 60000
    ensures postedMs.Some? ==> r == TimeAgo(ElapsedSeconds(nowMs, postedMs.value))
  {
    match postedMs
    case None => JustNow
    case Some(t) => TimeAgo(ElapsedSeconds(nowMs, t))
  }

  /** Independent reading of the cascade: the units, longest first. */
  datatype Unit = Year | Month | Day | Hour | Minute

  function Period(u: Unit): int
  {
    match u
    case Year => SecondsPerYear
    case Month => SecondsPerMonth
    case Day => SecondsPerDay
    case Hour => SecondsPerHour
    case Minute => SecondsPerMinute
  }

  /** The unit a label reports, if any, and its count. */
  function UnitOf(a: Ago): Option<Unit>
  {
    match a
    case Years(_) => Some(Year)
    case Months(_) => Some(Month)
    case Days(_) => Some(Day)
    case Hours(_) => Some(Hour)
    case Minutes(_) => Some(Minute)
    case JustNow => None
  }

  /** The largest unit wins: the label reports the longest unit whose period
      fits in the elapsed time, counted as whole periods, and "just now"
      exactly when not even a minute fits. */
  lemma LargestUnitWins(seconds: int)
    ensures TimeAgo(seconds).JustNow? <==> forall u: Unit :: Period(u) > seconds
    ensures var r := TimeAgo(seconds);
            !r.JustNow? ==>
              && Period(UnitOf(r).value) <= seconds
              && r.n == seconds / Period(UnitOf(r).value) && r.n >= 1
              && forall u: Unit :: Period(u) > Period(UnitOf(r).value) ==> Period(u) > seconds
  {
    assert Period(Minute) == SecondsPerMinute;
  }

  /** Older timestamps never get a shorter unit. */
  lemma UnitMonotone(s1: int, s2: int)
    requires s1 <= s2
    requires !TimeAgo(s1).JustNow?
    ensures !TimeAgo(s2).JustNow?
    ensures Period(UnitOf(TimeAgo(s1)).value) <= Period(UnitOf(TimeAgo(s2)).value)
  {
  }
}

=== FILE: interactions.dfy ===
/** The client-side interaction store (src/utils/interactionUtils.ts).

    Each table is what `getStorageData` yields for its storage key, with the
    key string `{type}_{id}` modelled as the pair `Key(kind, id)`. Every
    operation is one read-modify-write of one table and returns the new store
    together with the value the source function returns. Clock readings
    (`Date.now()`) are parameters. */
module Interactions {
  import opened Options

  datatype ContentType = Question | Answer | Blog | News | Comment

  /** The content types each table's functions accept. */
  type VoteType = t: ContentType | t == Question || t == Answer witness Question
  type FavoriteType = t: ContentType | t == Question || t == Blog || t == News witness Question
  type ModerationType = t: ContentType | t == Question || t == Answer || t == Comment witness Question
  type ThreadType = VoteType

  datatype Key = Key(kind: ContentType, id: int)

  /** The `voteType` argument, `1 | -1`. */
  datatype Direction = Up | Down {
    function Value(): (v: int)
      ensures v == 1 || v == -1
      ensures Up? <==> v > 0
    {
      if Up? then 1 else -1
    }
  }

  /** A stored vote. JSON parsing does not validate the payload, so any integer may be read back. */
  datatype VoteRecord = VoteRecord(kind: ContentType, vote: int)
  /** A favourite or hidden marker. */
  datatype Mark = Mark(kind: ContentType, timestamp: int)
  datatype Report = Report(kind: ContentType, reason: string, timestamp: int)
  datatype Author = Author(id: int, name: string)
  datatype CommentRecord = CommentRecord(id: int, content: string, author: Author, timestamp: int, parentId: Option<int>)

  datatype Store = Store(
    votes: map<Key, VoteRecord>,
    favorites: map<Key, Mark>,
    hidden: map<Key, Mark>,
    reported: map<Key, Report>,
    comments: map<Key, seq<CommentRecord>>,
    /** `question_{id}_accepted_answer`: None is a saved JSON `null`. */
    accepted: map<int, Option<int>>)

  /** A new store together with the source function's return value. */
  datatype Updated<T> = Updated(store: Store, result: T)

  /** Every store starts empty: each table reads as its default. */
  const Empty := Store(map[], map[], map[], map[], map[], map[])

  /** The fixed identity every new comment is attributed to. */
  const CurrentUser := Author(1, "当前用户")

  // ---------------------------------------------------------------- votes

  /** `getUserVote`: the stored vote, 0 when there is no record. */
  function GetUserVote(s: Store, id: int, t: VoteType): (v: int)
    ensures Key(t, id) !in s.votes ==> v == 0
    ensures Key(t, id) in s.votes ==> v == s.votes[Key(t, id)].vote
  {
    var k := Key(t, id);
    if k in s.votes then s.votes[k].vote else 0
  }

  /** `handleVote`: a click on the button already pressed retracts the vote,
      any other click sets the vote to its direction. The returned count moves
      by exactly as much as the stored vote does. */
  function HandleVote(s: Store, id: int, t: VoteType, d: Direction, count: int): (r: Updated<int>)
    ensures var before := GetUserVote(s, id, t);
            var after := GetUserVote(r.store, id, t);
            r.result - count == after - before
    ensures GetUserVote(s, id, t) == d.Value() ==>
              GetUserVote(r.store, id, t) == 0 && r.result == count - d.Value()
    ensures GetUserVote(s, id, t) != d.Value() ==>
              GetUserVote(r.store, id, t) == d.Value() && r.result == count - GetUserVote(s, id, t) + d.Value()
    ensures Key(t, id) in r.store.votes && r.store.votes[Key(t, id)].kind == t
    ensures r.store.votes - {Key(t, id)} == s.votes - {Key(t, id)}
    ensures r.store == s.(votes := r.store.votes)
  {
    var k := Key(t, id);
    var current := GetUserVote(s, id, t);
    if current == d.Value() then
      Updated(s.(votes := s.votes[k := VoteRecord(t, 0)]), count - d.Value())
    else
      Updated(s.(votes := s.votes[k := VoteRecord(t, d.Value())]), count - current + d.Value())
  }

  /** Every stored vote is one of -1, 0, 1, as the source's type declares. */
  ghost predicate ValidVotes(s: Store)
  {
    forall k :: k in s.votes ==> -1 <= s.votes[k].vote <= 1
  }

  /** On a well-formed store a click keeps the votes well formed and moves the count by at most 2. */
  lemma VoteStepBounded(s: Store, id: int, t: VoteType, d: Direction, count: int)
    requires ValidVotes(s)
    ensures ValidVotes(HandleVote(s, id, t, d, count).store)
    ensures -2 <= HandleVote(s, id, t, d, count).result - count <= 2
  {
  }

  /** The voting control's loop: each click feeds the count returned by the previous one back in. */
  function CastVotes(s: Store, id: int, t: VoteType, clicks: seq<Direction>, count: int): (r: Updated<int>)
    ensures r.store.votes - {Key(t, id)} == s.votes - {Key(t, id)}
    ensures r.store == s.(votes := r.store.votes)
    ensures |clicks| > 0 ==> Key(t, id) in r.store.votes
    decreases |clicks|
  {
    if |clicks| == 0 then Updated(s, count)
    else
      var step := HandleVote(s, id, t, clicks[0], count);
      CastVotes(step.store, id, t, clicks[1..], step.result)
  }

  /** Threading the returned count keeps `count - storedVote` fixed across any
      click sequence, so the displayed count never drifts from the base count. */
  lemma {:induction false} CastVotesKeepsBase(s: Store, id: int, t: VoteType, clicks: seq<Direction>, count: int)
    ensures var r := CastVotes(s, id, t, clicks, count);
            r.result - GetUserVote(r.store, id, t) == count - GetUserVote(s, id, t)
    decreases |clicks|
  {
    if |clicks| > 0 {
      var step := HandleVote(s, id, t, clicks[0], count);
      CastVotesKeepsBase(step.store, id, t, clicks[1..], step.result);
    }
  }

  /** Clicking the same button twice: from the vote it sets, the store and
      count are back where they started; from any other vote, the vote ends
      retracted and the count is `count - before`. */
  lemma SameDirectionTwice(s: Store, id: int, t: VoteType, d: Direction, count: int)
    ensures var first := HandleVote(s, id, t, d, count);
            var second := HandleVote(first.store, id, t, d, first.result);
            if GetUserVote(s, id, t) == d.Value() then
              GetUserVote(second.store, id, t) == d.Value() && second.result == count
            else
              GetUserVote(second.store, id, t) == 0 && second.result == count - GetUserVote(s, id, t)
  {
  }

  /** With no vote (no record, or the `{vote: 0}` record a retraction leaves),
      a second click on the same button restores the count and leaves no vote. */
  lemma FreshVoteUndone(s: Store, id: int, t: VoteType, d: Direction, count: int)
    requires GetUserVote(s, id, t) == 0
    ensures HandleVote(s, id, t, d, count).result == count + d.Value()
    ensures GetUserVote(HandleVote(s, id, t, d, count).store, id, t) == d.Value()
    ensures var first := HandleVote(s, id, t, d, count);
            var second := HandleVote(first.store, id, t, d, first.result);
            second.result == count && GetUserVote(second.store, id, t) == 0
  {
  }

  /** Switching from an upvote to a downvote costs two. */
  lemma SwitchUpToDown(s: Store, id: int, t: VoteType, count: int)
    requires GetUserVote(s, id, t) == 1
    ensures HandleVote(s, id, t, Down, count).result == count - 2
    ensures GetUserVote(HandleVote(s, id, t, Down, count).store, id, t) == -1
  {
  }

  // ------------------------------------------------ favourites and hidden

  /** The toggle shared by the favourite and hidden tables: remove the marker
      if present, otherwise add it; report whether it is now present. */
  function ToggleMark(m: map<Key, Mark>, k: Key, mark: Mark): (r: (map<Key, Mark>, bool))
    ensures r.1 == (k !in m)
    ensures k in r.0 <==> r.1
    ensures r.1 ==> r.0[k] == mark
    ensures r.0 - {k} == m - {k}
  {
    if k in m then (m - {k}, false) else (m[k := mark], true)
  }

  /** `isFavorited`: a stored marker is an object, so `!!` makes it true. */
  function IsFavorited(s: Store, id: int, t: FavoriteType): (b: bool)
    ensures b <==> Key(t, id) in s.favorites
  {
    Key(t, id) in s.favorites
  }

  /** `toggleFavorite`: flips membership and returns the new membership; no other table or key changes. */
  function ToggleFavorite(s: Store, id: int, t: FavoriteType, now: int): (r: Updated<bool>)
    ensures r.result == !IsFavorited(s, id, t)
    ensures IsFavorited(r.store, id, t) == r.result
    ensures r.result ==> r.store.favorites[Key(t, id)] == Mark(t, now)
    ensures r.store.favorites - {Key(t, id)} == s.favorites - {Key(t, id)}
    ensures r.store == s.(favorites := r.store.favorites)
  {
    var (m, on) := ToggleMark(s.favorites, Key(t, id), Mark(t, now));
    Updated(s.(favorites := m), on)
  }

  /** `isHidden`: true exactly when a marker is stored under the key. */
  function IsHidden(s: Store, id: int, t: ModerationType): (b: bool)
    ensures b <==> Key(t, id) in s.hidden
  {
    Key(t, id) in s.hidden
  }

  /** `toggleHide`: the same toggle over the hidden table, independent of favourites. */
  function ToggleHide(s: Store, id: int, t: ModerationType, now: int): (r: Updated<bool>)
    ensures r.result == !IsHidden(s, id, t)
    ensures IsHidden(r.store, id, t) == r.result
    ensures r.result ==> r.store.hidden[Key(t, id)] == Mark(t, now)
    ensures r.store.hidden - {Key(t, id)} == s.hidden - {Key(t, id)}
    ensures r.store == s.(hidden := r.store.hidden)
  {
    var (m, on) := ToggleMark(s.hidden, Key(t, id), Mark(t, now));
    Updated(s.(hidden := m), on)
  }

  /** Toggling a favourite twice restores membership for every key, whatever the clock read. */
  lemma ToggleFavoriteTwice(s: Store, id: int, t: FavoriteType, now1: int, now2: int, j: int, u: FavoriteType)
    ensures IsFavorited(ToggleFavorite(ToggleFavorite(s, id, t, now1).store, id, t, now2).store, j, u)
         == IsFavorited(s, j, u)
  {
  }

  /** Toggling hidden twice restores membership for every key. */
  lemma ToggleHideTwice(s: Store, id: int, t: ModerationType, now1: int, now2: int, j: int, u: ModerationType)
    ensures IsHidden(ToggleHide(ToggleHide(s, id, t, now1).store, id, t, now2).store, j, u)
         == IsHidden(s, j, u)
  {
  }

  /** A toggle on one key leaves the answer for every other key of the same table unchanged. */
  lemma ToggleHideOtherKeys(s: Store, id: int, t: ModerationType, now: int, j: int, u: ModerationType)
    requires Key(u, j) != Key(t, id)
    ensures IsHidden(ToggleHide(s, id, t, now).store, j, u) == IsHidden(s, j, u)
  {
  }

  // -------------------------------------------------------------- reports

  /** `isReported`: true exactly when a report is stored under the key. */
  function IsReported(s: Store, id: int, t: ModerationType): (b: bool)
    ensures b <==> Key(t, id) in s.reported
  {
    Key(t, id) in s.reported
  }

  /** `reportContent`: only the first report on a key is stored; later calls
      return false and change nothing. */
  function ReportContent(s: Store, id: int, t: ModerationType, reason: string, now: int): (r: Updated<bool>)
    ensures r.result == !IsReported(s, id, t)
    ensures IsReported(r.store, id, t)
    ensures !r.result ==> r.store == s
    ensures r.result ==> r.store.reported[Key(t, id)] == Report(t, reason, now)
    ensures r.store.reported - {Key(t, id)} == s.reported - {Key(t, id)}
    ensures r.store == s.(reported := r.store.reported)
  {
    var k := Key(t, id);
    if k in s.reported then Updated(s, false)
    else Updated(s.(reported := s.reported[k := Report(t, reason, now)]), true)
  }

  /** Reporting twice returns true then false, and the first reason is the one kept. */
  lemma ReportIsOneShot(s: Store, id: int, t: ModerationType, reason1: string, now1: int, reason2: string, now2: int)
    requires !IsReported(s, id, t)
    ensures var first := ReportContent(s, id, t, reason1, now1);
            var second := ReportContent(first.store, id, t, reason2, now2);
            first.result && !second.result && second.store == first.store
            && second.store.reported[Key(t, id)].reason == reason1
  {
  }

  // ------------------------------------------------------------- comments

  /** `getComments`: the thread in append order, empty when nothing was stored. */
  function GetComments(s: Store, id: int, t: ThreadType): (cs: seq<CommentRecord>)
    ensures Key(t, id) !in s.comments ==> cs == []
    ensures Key(t, id) in s.comments ==> cs == s.comments[Key(t, id)]
  {
    var k := Key(t, id);
    if k in s.comments then s.comments[k] else []
  }

  /** The record `addComment` builds: authored by the current user, `parentId` stored verbatim. */
  function NewComment(id: int, text: string, timestamp: int, parentId: Option<int>): (c: CommentRecord)
    ensures c.id == id && c.content == text && c.timestamp == timestamp && c.parentId == parentId
    ensures c.author.id == 1
  {
    CommentRecord(id, text, CurrentUser, timestamp, parentId)
  }

  /** `addComment`: appends one record to the end of this thread and returns
      its id. `newId` and `timestamp` are the two `Date.now()` readings. */
  function AddComment(s: Store, id: int, t: ThreadType, text: string, parentId: Option<int>,
                      newId: int, timestamp: int): (r: Updated<int>)
    ensures var before := GetComments(s, id, t);
            var after := GetComments(r.store, id, t);
            |after| == |before| + 1 && after[..|before|] == before
            && after[|before|] == NewComment(newId, text, timestamp, parentId)
    ensures r.result == GetComments(r.store, id, t)[|GetComments(s, id, t)|].id
    ensures r.store.comments - {Key(t, id)} == s.comments - {Key(t, id)}
    ensures r.store == s.(comments := r.store.comments)
  {
    var k := Key(t, id);
    var c := NewComment(newId, text, timestamp, parentId);
    Updated(s.(comments := s.comments[k := GetComments(s, id, t) + [c]]), newId)
  }

  /** Adding to one thread leaves every other thread's list as it was. */
  lemma AddCommentOtherThreads(s: Store, id: int, t: ThreadType, text: string, parentId: Option<int>,
                               newId: int, timestamp: int, id2: int, t2: ThreadType)
    requires Key(t2, id2) != Key(t, id)
    ensures GetComments(AddComment(s, id, t, text, parentId, newId, timestamp).store, id2, t2)
         == GetComments(s, id2, t2)
  {
  }

  // ------------------------------------------------------ accepted answers

  /** `isAnswerAccepted`: strict equality with the stored id; a saved `null` matches nothing. */
  function IsAnswerAccepted(s: Store, questionId: int, answerId: int): (b: bool)
    ensures b <==> questionId in s.accepted && s.accepted[questionId] == Some(answerId)
    ensures b ==> forall other :: other != answerId ==> !(s.accepted[questionId] == Some(other))
  {
    questionId in s.accepted && s.accepted[questionId] == Some(answerId)
  }

  /** `toggleAcceptAnswer`: un-accepts the answer that is accepted, otherwise
      makes this answer the question's only accepted one. */
  function ToggleAcceptAnswer(s: Store, questionId: int, answerId: int): (r: Updated<bool>)
    ensures r.result == !IsAnswerAccepted(s, questionId, answerId)
    ensures IsAnswerAccepted(r.store, questionId, answerId) == r.result
    ensures forall b :: b != answerId ==> !IsAnswerAccepted(r.store, questionId, b)
    ensures r.store.accepted - {questionId} == s.accepted - {questionId}
    ensures r.store == s.(accepted := r.store.accepted)
  {
    if questionId in s.accepted && s.accepted[questionId] == Some(answerId) then
      Updated(s.(accepted := s.accepted[questionId := None]), false)
    else
      Updated(s.(accepted := s.accepted[questionId := Some(answerId)]), true)
  }

  /** A question never has two accepted answers. */
  lemma AtMostOneAccepted(s: Store, questionId: int, a: int, b: int)
    requires IsAnswerAccepted(s, questionId, a) && IsAnswerAccepted(s, questionId, b)
    ensures a == b
  {
  }

  /** Accepting b while a is accepted returns true and un-accepts a. */
  lemma AcceptingAnotherReplaces(s: Store, questionId: int, a: int, b: int)
    requires IsAnswerAccepted(s, questionId, a) && a != b
    ensures ToggleAcceptAnswer(s, questionId, b).result
    ensures !IsAnswerAccepted(ToggleAcceptAnswer(s, questionId, b).store, questionId, a)
    ensures IsAnswerAccepted(ToggleAcceptAnswer(s, questionId, b).store, questionId, b)
  {
  }

  /** Accepting twice returns true then false and leaves the answer un-accepted. */
  lemma AcceptTwice(s: Store, questionId: int, a: int)
    requires !IsAnswerAccepted(s, questionId, a)
    ensures var first := ToggleAcceptAnswer(s, questionId, a);
            var second := ToggleAcceptAnswer(first.store, questionId, a);
            first.result && !second.result && !IsAnswerAccepted(second.store, questionId, a)
  {
  }
}

=== FILE: options.dfy ===
/** The optional value used throughout the model: a JSON `null`/`undefined`,
    a missing record, or a parse that failed. */
module Options {

  datatype Option<+T> = None | Some(value: T) {

    /** The value if present, otherwise `default` (the `?? default` idiom). */
    function GetOr(default: T): (r: T)
      ensures Some? ==> r == value
      ensures None? ==> r == default
    {
      match this
      case Some(v) => v
      case None => default
    }
  }
}

=== FILE: seqs.dfy ===
/** Order-preserving filtering of sequences, the model of `Array.prototype.filter`. */
module Seqs {

  /** The elements of `s` that satisfy `p`, in their original order. */
  function Filter<T(!new)>(s: seq<T>, p: T -> bool): (r: seq<T>)
    ensures forall x :: x in r <==> x in s && p(x)
    ensures |r| <= |s|
  {
    if |s| == 0 then []
    else (if p(s[0]) then [s[0]] else []) + Filter(s[1..], p)
  }

  /** Filtering distributes over concatenation: the kept elements of a prefix
      come before the kept elements of the suffix, so storage order is kept. */
  lemma {:induction false} FilterAppend<T(!new)>(a: seq<T>, b: seq<T>, p: T -> bool)
    ensures Filter(a + b, p) == Filter(a, p) + Filter(b, p)
  {
    if |a| == 0 {
      assert a + b == b;
    } else {
      assert (a + b)[0] == a[0];
      assert (a + b)[1..] == a[1..] + b;
      FilterAppend(a[1..], b, p);
    }
  }

  /** A single element is kept exactly when it satisfies the predicate. */
  lemma FilterSingleton<T(!new)>(x: T, p: T -> bool)
    ensures Filter([x], p) == if p(x) then [x] else []
  {
    assert [x][1..] == [];
  }

  /** Appending one element appends it to the filtered result iff it is kept. */
  lemma FilterSnoc<T(!new)>(s: seq<T>, x: T, p: T -> bool)
    ensures Filter(s + [x], p) == Filter(s, p) + (if p(x) then [x] else [])
  {
    FilterAppend(s, [x], p);
    FilterSingleton(x, p);
  }

  /** The filter keeps everything exactly when every element satisfies the predicate. */
  lemma {:induction false} FilterKeepsAll<T(!new)>(s: seq<T>, p: T -> bool)
    ensures |Filter(s, p)| == |s| <==> forall i :: 0 <= i < |s| ==> p(s[i])
  {
    if |s| > 0 {
      FilterKeepsAll(s[1..], p);
      if !p(s[0]) {
        assert |Filter(s[1..], p)| <= |s[1..]|;
      } else {
        forall i | 0 < i < |s|
          ensures p(s[i]) == p(s[1..][i - 1])
        {
        }
      }
    }
  }

  /** Pigeonhole: pairwise distinct elements all drawn from `s` are at most `|s|` many. */
  lemma {:induction false} DistinctFits<T>(xs: seq<T>, s: seq<T>)
    requires forall i, j :: 0 <= i < j < |xs| ==> xs[i] != xs[j]
    requires forall i :: 0 <= i < |xs| ==> xs[i] in s
    ensures |xs| <= |s|
  {
    if |xs| > 0 {
      var last := xs[|xs| - 1];
      var k :| 0 <= k < |s| && s[k] == last;
      var rest := s[..k] + s[k + 1..];
      assert s == s[..k] + [last] + s[k + 1..];
      var init := xs[..|xs| - 1];
      forall i | 0 <= i < |init|
        ensures init[i] in rest
      {
        assert init[i] == xs[i] && xs[i] != last;
        assert xs[i] in s;
      }
      DistinctFits(init, rest);
    }
  }
}

=== FILE: storage.dfy ===
/** The browser's local key-value storage and the two helpers every table goes
    through (src/utils/interactionUtils.ts, getStorageData and saveStorageData).

    Storage is a map from key to serialized payload. JSON is not modelled:
    `parse` stands for `JSON.parse` and returns None where it would throw, and
    `encode` stands for `JSON.stringify`. */
module Storage {
  import opened Options

  type Raw = map<string, string>

  const VotesKey := "content_platform_votes"
  const FavoritesKey := "content_platform_favorites"
  const HiddenKey := "content_platform_hidden"
  const ReportedKey := "content_platform_reported"
  /** Each comment thread lives under this prefix followed by `{type}_{id}_comments`. */
  const CommentsPrefix := "content_platform_comments"

  /** Fail-soft read: a missing key, an empty payload or a payload that does
      not parse all fall back to the caller's default; otherwise the decoded
      payload is returned. No input is an error. */
  function GetStorageData<T>(raw: Raw, key: string, parse: string -> Option<T>, default: T): (r: T)
    ensures key !in raw || raw[key] == "" ==> r == default
    ensures key in raw && parse(raw[key]).None? ==> r == default
    ensures key in raw && raw[key] != "" && parse(raw[key]).Some? ==> r == parse(raw[key]).value
    ensures r == default || (key in raw && raw[key] != "" && parse(raw[key]) == Some(r))
  {
    if key !in raw || raw[key] == "" then default
    else parse(raw[key]).GetOr(default)
  }

  /** Serialize `data` and store it under `key`, replacing any earlier payload. */
  function SaveStorageData<T>(raw: Raw, key: string, encode: T -> string, data: T): (r: Raw)
    ensures key in r && r[key] == encode(data)
    ensures r.Keys == raw.Keys + {key}
    ensures forall k :: k in raw && k != key ==> r[k] == raw[k]
  {
    raw[key := encode(data)]
  }

  /** Reading back what was just saved returns it, provided the codec round-trips
      on this value and serializes it to non-empty text (JSON text never is empty). */
  lemma SaveThenGet<T>(raw: Raw, key: string, parse: string -> Option<T>, encode: T -> string, data: T, default: T)
    requires parse(encode(data)) == Some(data)
    requires encode(data) != ""
    ensures GetStorageData(SaveStorageData(raw, key, encode, data), key, parse, default) == data
  {
  }

  /** Saving under one key never changes what is read under another. */
  lemma SaveIsolated<T, U>(raw: Raw, key: string, encode: T -> string, data: T,
                           other: string, parse: string -> Option<U>, default: U)
    requires other != key
    ensures GetStorageData(SaveStorageData(raw, key, encode, data), other, parse, default)
         == GetStorageData(raw, other, parse, default)
  {
  }

  /** A corrupt payload is indistinguishable from a missing one. */
  lemma CorruptReadsAsMissing<T>(raw: Raw, key: string, parse: string -> Option<T>, default: T)
    requires key in raw && parse(raw[key]).None?
    ensures GetStorageData(raw, key, parse, default) == GetStorageData(raw - {key}, key, parse, default)
  {
  }

  /** Key of the accepted-answer slot of a question: `question_{id}_accepted_answer`,
      for the decimal text `idText` of the question id. */
  function AcceptedAnswerKey(idText: string): string
  {
    "question_" + idText + "_accepted_answer"
  }

  /** Every table has its own storage key: the four fixed tables differ, every
      comment thread key starts with the comments prefix and no fixed table key
      does, and no accepted-answer key starts with the shared prefix. With
      SaveIsolated, a save to one table never changes what another table reads. */
  lemma TableKeysDistinct(threadSuffix: string, idText: string)
    ensures VotesKey != FavoritesKey && VotesKey != HiddenKey && VotesKey != ReportedKey
    ensures FavoritesKey != HiddenKey && FavoritesKey != ReportedKey && HiddenKey != ReportedKey
    ensures var thread := CommentsPrefix + threadSuffix;
            thread != VotesKey && thread != FavoritesKey && thread != HiddenKey && thread != ReportedKey
    ensures var slot := AcceptedAnswerKey(idText);
            slot != VotesKey && slot != FavoritesKey && slot != HiddenKey && slot != ReportedKey
            && slot != CommentsPrefix + threadSuffix
  {
    var thread := CommentsPrefix + threadSuffix;
    assert thread[17] == 'c';
    assert VotesKey[17] == 'v' && FavoritesKey[17] == 'f' && HiddenKey[17] == 'h' && ReportedKey[17] == 'r';
    var slot := AcceptedAnswerKey(idText);
    assert slot[0] == 'q' && thread[0] == 'c';
    assert VotesKey[0] == 'c' && FavoritesKey[0] == 'c' && HiddenKey[0] == 'c' && ReportedKey[0] == 'c';
  }
}
